=== FILE: README.md ===
# Word-map persistence dispatch, modelled in Dafny

This project models the persistence core of the word-association
visualiser's File and Render menus (`src/gui/AdvancedMenu.java`):

- `replaceFileExtension`, which forces a file extension onto an absolute path;
- the **Save** handler: the chosen filter picks an extension, the file is
  renamed, an "Overwrite file?" gate runs when the renamed file exists, and
  then the one codec bound to the filter is called;
- the **Load** handler: the chosen filter picks the codec that reads the
  chosen path;
- the **Load Web** handler: a `name;size` catalog listing is read line by
  line, all or nothing, the entries are offered, and a pick loads a file;
- the **Render** menu: "Render Once" and the "Render Always" / "Render Smart"
  toggle over the states SMART, ONCE and ALWAYS.

Everything the handlers get from dialogs becomes a parameter: the chosen
path (`None` when the dialog is not approved), the selected filter (`None`
when no known filter is selected), the set of paths that exist, the
overwrite answer (`Yes`, `No` or `Closed`), the downloaded listing and the
picked entry. Each handler is a pure function returning the trace of what
it does (`Persistence.Effect`): dialogs shown, lines printed, codecs
called with their paths, redraw requests, exceptions.

Modules, one per concern:

| file | module | contents |
|---|---|---|
| `wrappers.dfy` | `Wrappers` | `Option`, `Result` |
| `java_text.dfy` | `JavaText` | `String.indexOf`/`lastIndexOf`, `String.split` on one character, `Integer.parseInt`, `Integer.toString`, `BufferedReader.readLine` |
| `paths.dfy` | `Paths` | `replaceFileExtension`, `File.getName` |
| `formats.dfy` | `Formats` | the Save and Load filters, their extensions, accepted suffixes and codecs |
| `catalog.dfy` | `Catalog` | the Load Web line parser and its inverse |
| `persistence.dfy` | `Persistence` | the Save, Load and Load Web handlers |
| `render.dfy` | `Render` | the Render menu |

The path separator (`File.separatorChar`) is a parameter; the lemmas
that need it to be a real one assume `/` or `\`.

Behaviours of the code worth noting:

- A declined overwrite is not free of side effects: it prints "Save canceled.".
- A filter the handler does not recognise is not an error: the file keeps its name, the gate still runs, and no codec is called.
- Codec failures are printed, not returned. They are not modelled.
- A malformed catalog line throws an unchecked exception (`ArrayIndexOutOfBoundsException` or `NumberFormatException`) that nothing catches. No entries are offered.
- Catalog sizes are whatever `Integer.parseInt` accepts: `+5`, `-5` and `007` are all sizes.
- An empty line (for instance a blank line at the end of the listing) rejects the whole listing.
- Whatever entry is picked, Load Web loads the fixed local file `IEP.cmp`. The model proves that the pick makes no difference.

## Model

| member | source | states |
|---|---|---|
| `JavaText.LastIndexOf` | src/gui/AdvancedMenu.java:37-38 | the result is -1 exactly when the character is absent, otherwise the position of its last occurrence |
| `Paths.ReplaceFileExtension` | src/gui/AdvancedMenu.java:33-45 | the result ends with "." + ext; before that comes a prefix of the path; what was dropped is empty or a dot followed by a dot- and separator-free token; it is dropped whenever the final segment has a dot |
| `Paths.DirectoryDotIsKept` | src/gui/AdvancedMenu.java:37-43 | when every dot of the path lies in a directory name, the extension is appended to the whole path |
| `Paths.ReplaceKeepsDirectory` | src/gui/AdvancedMenu.java:36-44 | the last separator stays where it was and the directory part up to it is unchanged |
| `Paths.ReplaceIdempotent` | src/gui/AdvancedMenu.java:33-45 | for an extension with no dot and no separator, replacing it twice gives the same path as once |
| `Paths.FileName` | src/gui/AdvancedMenu.java:102 | the name `accept` tests is the longest separator-free suffix of the path |
| `Paths.FileNameGetsExtension` | src/gui/AdvancedMenu.java:40-44 | the file name of the renamed path ends with "." + ext |
| `Formats.Extension` | src/gui/AdvancedMenu.java:155-165 | each forced extension is a three-letter token with no dot and no separator |
| `Formats.AcceptedSuffix` | src/gui/AdvancedMenu.java:101-128 | the suffix each Save filter's `accept` tests is "." plus the extension the Save handler forces for that filter |
| `Formats.SaveAccepts` | src/gui/AdvancedMenu.java:101-128 | a Save filter shows every directory, and a plain file exactly when its name ends with "." plus the filter's forced extension |
| `Formats.SavedNameAccepted` | src/gui/AdvancedMenu.java:101-165 | each filter's accepted suffix is "." + its forced extension, so the renamed file is one its filter shows |
| `Formats.SaveCodec` | src/gui/AdvancedMenu.java:182-198 | each Save filter is bound to a writing codec |
| `Formats.LoadCodec` | src/gui/AdvancedMenu.java:259-268 | each Load filter is bound to a reading codec, never a writing one |
| `Formats.SaveCodecsDistinct` | src/gui/AdvancedMenu.java:182-198 | every Save filter calls a different writing codec; the two CSV filters share an extension but not a codec |
| `Formats.LoadCodecsDistinct` | src/gui/AdvancedMenu.java:259-268 | every Load filter calls a different reading codec |
| `JavaText.Fields` | src/gui/AdvancedMenu.java:287 | the fields hold no separator and joined with it give back the line |
| `JavaText.Split` | src/gui/AdvancedMenu.java:287 | a line without ';' splits into itself; no field holds ';' |
| `JavaText.SplitDropsTrailingEmpty` | src/gui/AdvancedMenu.java:287 | otherwise `split` keeps the fields in order and drops exactly the empty ones at the end |
| `JavaText.ParseInt` | src/gui/AdvancedMenu.java:289 | an accepted size fits an `int` and is an optional sign followed by decimal digits |
| `JavaText.ParseIntAccepts` | src/gui/AdvancedMenu.java:289 | every optional sign (none, '+' or '-') followed by decimal digits whose value fits an `int` is accepted with that value, leading zeros included |
| `JavaText.ParseIntReadsNumeral` | src/gui/AdvancedMenu.java:289 | every accepted string is such a sign and digits, and its value is theirs; with `ParseIntAccepts`, `parseInt` succeeds exactly on signed in-range numerals |
| `JavaText.ParseIntLenientExamples` | src/gui/AdvancedMenu.java:289 | `007` reads as 7, `+5` as 5 and `-5` as -5 |
| `JavaText.ParseIntDecimal` | src/gui/AdvancedMenu.java:289 | `parseInt` reads back every `int` written in decimal |
| `JavaText.Lines` | src/gui/AdvancedMenu.java:286 | the lines `readLine` returns hold no line terminator, and there are no more of them than the text has characters |
| `JavaText.LinesUnlines` | src/gui/AdvancedMenu.java:286 | a text written as lines all ended by the same one of "\n", "\r" or "\r\n" is read back as exactly those lines |
| `JavaText.LinesUnlinesEach` | src/gui/AdvancedMenu.java:286 | lines each ended by its own choice of "\n", "\r" or "\r\n" (a lone "\r" not followed by an empty line ended by "\n"), then an optional final line with no terminator, are read back as exactly those lines |
| `JavaText.LinesUnterminatedLast` | src/gui/AdvancedMenu.java:286 | a non-empty last line with no terminator is still returned as a line after the terminated ones |
| `JavaText.LinesUnterminatedExample` | src/gui/AdvancedMenu.java:286 | "a;1\nb;2" is read as the two lines "a;1" and "b;2" |
| `JavaText.LinesMixedExample` | src/gui/AdvancedMenu.java:286 | "a\r\nb\n" is read as the two lines "a" and "b" |
| `Catalog.ParseLine` | src/gui/AdvancedMenu.java:287-290 | an accepted line gives a name without ';' and a size in `int` range |
| `Catalog.ParseLineShape` | src/gui/AdvancedMenu.java:287-289 | a line fails for a missing field exactly when it splits into fewer than two fields; an accepted line starts with its name and ';' |
| `Catalog.ParseLineReadsSize` | src/gui/AdvancedMenu.java:287-290 | a line whose second field is a signed in-range decimal numeral gives field 0 as the name and the numeral's value as the size |
| `Catalog.NonNumericSizeRejected` | src/gui/AdvancedMenu.java:287-289 | a line with a second field that is not a signed in-range decimal numeral throws NumberFormatException |
| `Catalog.ParseFormatLine` | src/gui/AdvancedMenu.java:287-290 | every entry whose name holds no ';' or line break is read back from `name;size` |
| `Catalog.ExtraFieldsIgnored` | src/gui/AdvancedMenu.java:287-290 | fields after the size do not change the entry |
| `Catalog.EmptySizeRejected` | src/gui/AdvancedMenu.java:287-289 | `name;` has no second field after `split` and fails |
| `Catalog.ParseCatalog` | src/gui/AdvancedMenu.java:286-291 | the listing is accepted exactly when every line `readLine` returns parses; then it gives one entry per line, in line order, each the parse of its own line |
| `Catalog.ParseEntries` | src/gui/AdvancedMenu.java:285-291 | all or nothing: success exactly when every line parses, with one entry per line in line order; otherwise the error of the first failing line |
| `Catalog.CatalogRoundTrip` | src/gui/AdvancedMenu.java:282-291 | a listing written from entries, with any of the three line terminators, is read back as the same entries in the same order |
| `Catalog.TwoEntryExample` | src/gui/AdvancedMenu.java:286-291 | `alpha;120\nbeta;4096\n` gives alpha 120 then beta 4096 |
| `Catalog.CrlfTwoEntryExample` | src/gui/AdvancedMenu.java:286-291 | `alpha;120\r\nbeta;4096\r\n` gives alpha 120 then beta 4096 |
| `Catalog.MalformedSizeExample` | src/gui/AdvancedMenu.java:286-291 | `alpha;oops\n` fails with NumberFormat and gives no entries |
| `Persistence.SaveTarget` | src/gui/AdvancedMenu.java:154-165 | with a known filter the file gets that filter's extension; with none it is left as chosen |
| `Persistence.SaveDispatch` | src/gui/AdvancedMenu.java:181-198 | a known filter calls exactly its own codec on the target; no filter calls nothing |
| `Persistence.SaveAt` | src/gui/AdvancedMenu.java:167-198 | once the target is fixed: the prompt appears exactly when it exists; no codec runs exactly when no filter is known or the answer is No; any codec call is the filter's own, on the target |
| `Persistence.Save` | src/gui/AdvancedMenu.java:150-198 | nothing happens without an approved dialog; the overwrite prompt appears exactly when the renamed file exists; no codec runs exactly when no filter is known or the answer is No; at most one codec runs, the filter's own, on the renamed file |
| `Persistence.SaveAbsentTargetNoPrompt` | src/gui/AdvancedMenu.java:168-198 | a target that does not exist is written without a prompt: the whole trace is the one call of the filter's codec |
| `Persistence.SaveDeclinedWritesNothing` | src/gui/AdvancedMenu.java:168-179 | answering No to the prompt prints "Save canceled." and calls no codec |
| `Persistence.SaveOverwriteConfirmed` | src/gui/AdvancedMenu.java:168-198 | Yes or a closed dialog goes on: the prompt, then exactly one codec call |
| `Persistence.SaveWritesAcceptedFile` | src/gui/AdvancedMenu.java:155-198 | every codec call of a save is a writing codec, on a file name its filter accepts |
| `Persistence.CsvFiltersShareFileNotCodec` | src/gui/AdvancedMenu.java:157-191 | the two CSV filters write to the same path but through different codecs |
| `Persistence.Load` | src/gui/AdvancedMenu.java:256-268 | exactly the selected filter's codec reads the chosen path unchanged; no prompt; a redraw exactly for the image directory, and only after the codec call |
| `Persistence.LoadWeb` | src/gui/AdvancedMenu.java:281-311 | a failed download prints a stack trace; a malformed listing throws before any dialog; entries are offered exactly when the listing parses, in listing order; a codec runs exactly when an offered entry is picked, once, and it is always LoadCMP on `IEP.cmp` |
| `Persistence.OfferThenLoad` | src/gui/AdvancedMenu.java:292-305 | the dialog offers exactly the parsed entries; the codec calls are exactly one LoadCMP on `IEP.cmp` when an offered entry is picked, and none otherwise |
| `Persistence.LoadWebIgnoresSelection` | src/gui/AdvancedMenu.java:303-305 | any two picks among the offered entries do exactly the same thing |
| `Persistence.LoadWebMalformedAborts` | src/gui/AdvancedMenu.java:286-291 | one malformed line means no entries are offered and nothing is loaded |
| `Render.Toggle` | src/gui/AdvancedMenu.java:488-501 | from SMART or ONCE the toggle goes to ALWAYS and reads "Render Smart"; from ALWAYS it goes to SMART and reads "Render Always"; the image is marked changed |
| `Render.ToggleLabelMatches` | src/gui/AdvancedMenu.java:492-498 | after a toggle click the label names the mode the next click selects |
| `Render.ToggleHonoursLabel` | src/gui/AdvancedMenu.java:488-498 | while the label matches the state, clicking "Render Smart" selects SMART and clicking "Render Always" selects ALWAYS |
| `Render.ToggleTwice` | src/gui/AdvancedMenu.java:492-498 | two toggle clicks return SMART and ALWAYS to themselves and take ONCE to SMART |
| `Render.Built` | src/gui/AdvancedMenu.java:488 | the built menu keeps the panel's state and flag, and its "Render Always" label matches exactly when the panel is not in ALWAYS |
| `Render.BuiltLabelMatches` | src/gui/AdvancedMenu.java:488 | the freshly built toggle ("Render Always") matches every state except ALWAYS |
| `Render.RenderOnceAsWritten` | src/gui/AdvancedMenu.java:477-485 | "Render Once" sets ONCE and marks the image changed, leaving the toggle label as it was |
| `Render.RenderOnceLeavesStaleLabel` | src/gui/AdvancedMenu.java:477-498 | after toggling to ALWAYS and then "Render Once", the toggle reads "Render Smart" but a click selects ALWAYS |
| `Render.RenderOnce` | src/gui/AdvancedMenu.java:477-485 | corrected, not as written: "Render Once" sets ONCE, marks the image changed, and also resets the toggle so its label matches the state (the code leaves the label as it was) |
| `Render.ClicksKeepLabel` | src/gui/AdvancedMenu.java:477-501 | corrected, not as written: with the corrected "Render Once", any sequence of menu clicks keeps the label matching the state, and any click marks the image changed; with the code's "Render Once" this fails (`Render.RenderOnceLeavesStaleLabel`) |

## Left out

- Swing construction is not modelled: the menus, items, file choosers, option panes and the property-change listener that records the selected filter. Their results are parameters.
- Codec bodies are not modelled. `IO.saveWorkspace`, `saveCSV`, `savePairs`, `saveWordList`, `saveCMPFrame`, `loadWorkSpace`, `loadCSV`, `loadImages` and `loadCMP` appear only as the codec tag of a call. Their encodings are not part of this model, so no save/load round trip is claimed.
- Codec and stream failures are not modelled. The `IOException` and `NumberFormatException` handlers of Save and Load only print; a trace ends with the codec call.
- Opening the output stream before the codec runs truncates the target. This is part of the codec call.
- `File.getAbsolutePath` is not modelled. The path is the absolute path string. The `File` constructor's normalisation is identity on such paths when the extension holds no separator; extensions with separators are outside every lemma that uses them.
- The catalog URL fetch is one `Download` outcome. An `IOException` in the middle of the listing, after lines have already been parsed, is folded into `DownloadFailed`.
- JavaText.ParseInt: accepts only ASCII digits. `Character.digit` also accepts other Unicode decimal digits.
- Load Web's selection dialog is an index. An index outside the offered entries stands for the dialog's `null`.
- The render items' calls to `showRenderingProgress` and `visualizationChanged` are not modelled. They are UI refreshes.
- The panel's initial render state is not modelled. It belongs to `Visualization`, which is not part of this model, and is a parameter of `Render.Built`. Render states other than the three constants are not modelled.
- The New item (`src/gui/AdvancedMenu.java:76-87`) is not modelled. It only clears the word map and notifies.
- The screenshot, the Google/Flickr image downloads, the layout menu, the connection menu, and the Tools and Help menus are not modelled. They are I/O, floating-point layout code in classes that are not part of this model, or single field assignments.

## Findings

| source | as written | input that shows it | evidently intended | confidence | as-written member | corrected member |
|---|---|---|---|---|---|---|
| src/gui/AdvancedMenu.java:477-498 | "Render Once" sets ONCE but leaves the toggle's label unchanged, and the toggle decides by state, not label | click the toggle (SMART to ALWAYS, label "Render Smart"), then "Render Once" (ONCE, label still "Render Smart"), then the item labelled "Render Smart": the state becomes ALWAYS | the toggle's label names what a click selects, so "Render Once" resets it to "Render Always" | medium, not executed | `Render.RenderOnceLeavesStaleLabel` | `Render.RenderOnce`, `Render.ClicksKeepLabel` |

=== FILE: catalog.dfy ===
/**
 * The "Load Web" catalog: a text of `name;size` lines, read one line at a
 * time, each split on ';' and its size read with Integer.parseInt. A line
 * that cannot be read this way throws an unchecked exception that ends the
 * whole handler, so the parse is all or nothing.
 */
module Catalog {
  import opened Wrappers
  import opened JavaText

  /** One downloadable dataset: a WeightedObject holding the name, weighted by the size. */
  datatype Entry = Entry(name: string, size: int)

  /** The unchecked exceptions a malformed line raises. */
  datatype Thrown =
    | ArrayIndexOutOfBounds   // the line has no second field
    | NumberFormat            // the second field is not an `int`

  /**
   * One catalog line: field 0 is the name, field 1 the size; further
   * fields are ignored.
   */
  function ParseLine(line: string): (r: Result<Entry, Thrown>)
    ensures r.Success? ==> InIntRange(r.value.size) && ';' !in r.value.name
  {
    var parts := Split(line, ';');
    if |parts| < 2 then Failure(ArrayIndexOutOfBounds)
    else
      match ParseInt(parts[1])
      case None => Failure(NumberFormat)
      case Some(n) => Success(Entry(parts[0], n))
  }

  /**
   * A line is rejected for a missing field exactly when it splits into
   * fewer than two fields; an accepted line starts with its name and ';'.
   */
  lemma ParseLineShape(line: string)
    ensures ParseLine(line) == Failure(ArrayIndexOutOfBounds) <==> |Split(line, ';')| < 2
    ensures ParseLine(line).Success? ==> var name := ParseLine(line).value.name;
      |name| < |line| && line[..|name| + 1] == name + ";"
  {
    var parts := Split(line, ';');
    if |parts| >= 2 && ParseLine(line).Success? {
      assert ';' in line;
      SplitDropsTrailingEmpty(line, ';');
      var fs := Fields(line, ';');
      assert parts[0] == fs[0];
      assert line == fs[0] + [';'] + Join(fs[1..], ';');
    }
  }

  /**
   * A size field that is an optional sign followed by decimal digits with
   * an `int` value is read as that value, whatever its leading zeros or
   * sign; the name is field 0.
   */
  lemma ParseLineReadsSize(line: string, sign: string, d: string)
    requires |Split(line, ';')| >= 2 && Split(line, ';')[1] == sign + d
    requires IsSign(sign) && |d| >= 1 && AllDigits(d)
    requires InIntRange(SignedValue(sign, d))
    ensures ParseLine(line) == Success(Entry(Split(line, ';')[0], SignedValue(sign, d)))
  {
    ParseIntAccepts(sign, d);
  }

  /**
   * A line whose second field is present but is not a signed decimal
   * numeral with an `int` value throws NumberFormatException.
   */
  lemma NonNumericSizeRejected(line: string)
    requires |Split(line, ';')| >= 2
    requires forall sign, d | IsSign(sign) && |d| >= 1 && AllDigits(d) && InIntRange(SignedValue(sign, d)) ::
      Split(line, ';')[1] != sign + d
    ensures ParseLine(line) == Failure(NumberFormat)
  {
    var field := Split(line, ';')[1];
    if ParseInt(field).Some? {
      ParseIntReadsNumeral(field);
      assert false;
    }
  }

  /** The line the catalog service writes for an entry. */
  function FormatLine(e: Entry): string {
    e.name + ";" + Decimal(e.size)
  }

  /** An entry the line format can carry: its name holds no ';' and no line break, its size fits an `int`. */
  predicate Writable(e: Entry) {
    ';' !in e.name && NoTerminator(e.name) && InIntRange(e.size)
  }

  /** Every writable entry is read back from its line. */
  lemma ParseFormatLine(e: Entry)
    requires Writable(e)
    ensures ParseLine(FormatLine(e)) == Success(e)
  {
    assert ';' !in Decimal(e.size);
    SplitPair(e.name, Decimal(e.size), ';');
    assert FormatLine(e) == e.name + [';'] + Decimal(e.size);
    ParseIntDecimal(e.size);
  }

  /** The line of a writable entry holds no line break. */
  lemma FormatLineOneLine(e: Entry)
    requires Writable(e)
    ensures NoTerminator(FormatLine(e))
  {
    var line := FormatLine(e);
    var d := Decimal(e.size);
    forall k | 0 <= k < |line| ensures !IsTerminator(line[k]) {
      if k < |e.name| {
        assert line[k] == e.name[k];
      } else if k > |e.name| {
        assert line[k] == d[k - |e.name| - 1];
      }
    }
  }

  /** Fields after the size are ignored. */
  lemma ExtraFieldsIgnored(e: Entry, extra: string)
    requires Writable(e)
    ensures ParseLine(FormatLine(e) + ";" + extra) == Success(e)
  {
    var line := FormatLine(e) + ";" + extra;
    assert ';' !in Decimal(e.size);
    assert line == e.name + [';'] + Decimal(e.size) + [';'] + extra;
    SplitKeepsLeadingPair(e.name, Decimal(e.size), extra, ';');
    var parts := Split(line, ';');
    assert parts[0] == e.name && parts[1] == Decimal(e.size);
    ParseIntDecimal(e.size);
  }

  /** A line that ends right after the separator has lost its size field and is rejected. */
  lemma EmptySizeRejected(name: string)
    requires ';' !in name
    ensures ParseLine(name + ";") == Failure(ArrayIndexOutOfBounds)
  {
    var line := name + ";";
    assert line[|name|] == ';';
    assert line[..|name|] == name && line[|name| + 1..] == "";
    assert Fields(line, ';') == [name] + Fields("", ';');
  }

  /**
   * All lines in order: the entries of every line when all of them parse,
   * otherwise the exception of the first line that does not.
   */
  function ParseEntries(lines: seq<string>): (r: Result<seq<Entry>, Thrown>)
    ensures r.Success? <==> forall k :: 0 <= k < |lines| ==> ParseLine(lines[k]).Success?
    ensures r.Success? ==> |r.value| == |lines|
    ensures r.Success? ==> forall k :: 0 <= k < |lines| ==> ParseLine(lines[k]) == Success(r.value[k])
    ensures r.Failure? ==> exists k :: 0 <= k < |lines| && ParseLine(lines[k]) == Failure(r.error) &&
                                       forall j :: 0 <= j < k ==> ParseLine(lines[j]).Success?
    decreases |lines|
  {
    if |lines| == 0 then Success([])
    else
      match ParseLine(lines[0])
      case Failure(e) => Failure(e)
      case Success(entry) =>
        match ParseEntries(lines[1..])
        case Failure(e) =>
          FirstFailureShifts(ParseLine, lines, e);
          Failure(e)
        case Success(rest) =>
          EntriesShift(ParseLine, lines, entry, rest);
          Success([entry] + rest)
  }

  /** The result for the first line in front of the results for the rest are the results for all lines. */
  lemma EntriesShift(parse: string -> Result<Entry, Thrown>, lines: seq<string>, entry: Entry, rest: seq<Entry>)
    requires |lines| > 0 && parse(lines[0]) == Success(entry)
    requires |rest| == |lines| - 1
    requires forall k :: 0 <= k < |lines[1..]| ==> parse(lines[1..][k]) == Success(rest[k])
    ensures forall k :: 0 <= k < |lines| ==> parse(lines[k]) == Success(([entry] + rest)[k])
  {
    var r := [entry] + rest;
    forall k | 1 <= k < |lines|
      ensures parse(lines[k]) == Success(r[k])
    {
      assert r[k] == rest[k - 1];
      assert lines[k] == lines[1..][k - 1];
    }
  }

  /** A first failing line of the tail is a first failing line of the whole when the head parses. */
  lemma FirstFailureShifts(parse: string -> Result<Entry, Thrown>, lines: seq<string>, e: Thrown)
    requires |lines| > 0 && parse(lines[0]).Success?
    requires exists k :: 0 <= k < |lines[1..]| && parse(lines[1..][k]) == Failure(e) &&
                         forall j :: 0 <= j < k ==> parse(lines[1..][j]).Success?
    ensures exists k :: 0 <= k < |lines| && parse(lines[k]) == Failure(e) &&
                        forall j :: 0 <= j < k ==> parse(lines[j]).Success?
  {
    var k :| 0 <= k < |lines[1..]| && parse(lines[1..][k]) == Failure(e) &&
             forall j :: 0 <= j < k ==> parse(lines[1..][j]).Success?;
    assert lines[k + 1] == lines[1..][k];
    assert forall j :: 1 <= j < k + 1 ==> lines[j] == lines[1..][j - 1];
  }

  /** The whole catalog text: one entry per line, in line order, or the first failing line's exception. */
  function ParseCatalog(body: string): (r: Result<seq<Entry>, Thrown>)
    ensures r.Success? <==> AllLinesParse(Lines(body))
    ensures r.Success? ==> |r.value| == |Lines(body)|
    ensures r.Success? ==>
      (forall k :: 0 <= k < |Lines(body)| ==> ParseLine(Lines(body)[k]) == Success(r.value[k]))
  {
    EntriesOfLines(Lines(body));
    ParseEntries(Lines(body))
  }

  /** Every one of the lines parses. */
  predicate AllLinesParse(lines: seq<string>) {
    forall k :: 0 <= k < |lines| ==> ParseLine(lines[k]).Success?
  }

  /** ParseEntries succeeds exactly when every line parses. */
  lemma EntriesOfLines(lines: seq<string>)
    ensures ParseEntries(lines).Success? <==> AllLinesParse(lines)
  {
  }

  /** The catalog text the service writes: one line per entry, each ended by the terminator t. */
  function FormatCatalog(entries: seq<Entry>, t: string): string
    decreases |entries|
  {
    if |entries| == 0 then "" else FormatLine(entries[0]) + t + FormatCatalog(entries[1..], t)
  }

  /** The catalog's lines without their terminators: line k is entry k written out. */
  function FormatLines(entries: seq<Entry>): (ls: seq<string>)
    ensures |ls| == |entries|
    ensures forall k :: 0 <= k < |entries| ==> ls[k] == FormatLine(entries[k])
    decreases |entries|
  {
    if |entries| == 0 then [] else [FormatLine(entries[0])] + FormatLines(entries[1..])
  }

  /** Writing the catalog is joining its lines, each followed by the terminator t. */
  lemma {:induction false} FormatCatalogUnlines(entries: seq<Entry>, t: string)
    ensures FormatCatalog(entries, t) == Unlines(FormatLines(entries), t)
    decreases |entries|
  {
    if |entries| > 0 {
      FormatCatalogUnlines(entries[1..], t);
      assert FormatLines(entries)[1..] == FormatLines(entries[1..]);
    }
  }

  /** Every line of a catalog of writable entries is one line that parses back to its entry. */
  lemma FormatLinesParse(entries: seq<Entry>)
    requires forall k :: 0 <= k < |entries| ==> Writable(entries[k])
    ensures forall k :: 0 <= k < |entries| ==> NoTerminator(FormatLines(entries)[k])
    ensures forall k :: 0 <= k < |entries| ==> ParseLine(FormatLines(entries)[k]) == Success(entries[k])
  {
    var ls := FormatLines(entries);
    forall k | 0 <= k < |ls|
      ensures NoTerminator(ls[k]) && ParseLine(ls[k]) == Success(entries[k])
    {
      FormatLineOneLine(entries[k]);
      ParseFormatLine(entries[k]);
    }
  }

  /**
   * A catalog of writable entries is read back exactly, in order, whether
   * its lines end in "\n", "\r" or "\r\n".
   */
  lemma CatalogRoundTrip(entries: seq<Entry>, t: string)
    requires IsLineTerminator(t)
    requires forall k :: 0 <= k < |entries| ==> Writable(entries[k])
    ensures ParseCatalog(FormatCatalog(entries, t)) == Success(entries)
  {
    var ls := FormatLines(entries);
    FormatLinesParse(entries);
    FormatCatalogUnlines(entries, t);
    LinesUnlines(ls, t);
    assert Lines(FormatCatalog(entries, t)) == ls;
    var r := ParseEntries(ls);
    assert r.value == entries;
  }

  /** The sizes of the two-entry listing are written as the digits "120" and "4096". */
  lemma TwoEntrySizes()
    ensures Decimal(120) == "120" && Decimal(4096) == "4096"
  {
    assert NatDigits(12) == "12";
    assert NatDigits(40) == "40";
    assert NatDigits(409) == "409";
  }

  /** The two-entry listing is written as "alpha;120" and "beta;4096", each followed by t. */
  lemma TwoEntryText(t: string)
    ensures FormatCatalog([Entry("alpha", 120), Entry("beta", 4096)], t) == "alpha;120" + t + "beta;4096" + t
  {
    var es := [Entry("alpha", 120), Entry("beta", 4096)];
    TwoEntrySizes();
    assert FormatLine(es[0]) == "alpha;120";
    assert FormatLine(es[1]) == "beta;4096";
    assert FormatCatalog(es[2..], t) == "";
    assert FormatCatalog(es[1..], t) == "beta;4096" + t;
  }

  /** The two entries, written with any line terminator, are read back in order. */
  lemma TwoEntryRoundTrip(t: string)
    requires IsLineTerminator(t)
    ensures var es := [Entry("alpha", 120), Entry("beta", 4096)];
      ParseCatalog(FormatCatalog(es, t)) == Success(es)
  {
    var es := [Entry("alpha", 120), Entry("beta", 4096)];
    assert Writable(es[0]) && Writable(es[1]);
    CatalogRoundTrip(es, t);
  }

  /** The two-entry listing is read in order. */
  lemma TwoEntryExample()
    ensures ParseCatalog("alpha;120\nbeta;4096\n") == Success([Entry("alpha", 120), Entry("beta", 4096)])
  {
    var es := [Entry("alpha", 120), Entry("beta", 4096)];
    TwoEntryText("\n");
    assert FormatCatalog(es, "\n") == "alpha;120\nbeta;4096\n";
    TwoEntryRoundTrip("\n");
  }

  /** The same listing with "\r\n" line ends is read the same way. */
  lemma CrlfTwoEntryExample()
    ensures ParseCatalog("alpha;120\r\nbeta;4096\r\n") == Success([Entry("alpha", 120), Entry("beta", 4096)])
  {
    var es := [Entry("alpha", 120), Entry("beta", 4096)];
    TwoEntryText("\r\n");
    assert FormatCatalog(es, "\r\n") == "alpha;120\r\nbeta;4096\r\n";
    TwoEntryRoundTrip("\r\n");
  }

  /** A size that is not a number rejects the whole listing, with no entries. */
  lemma MalformedSizeExample()
    ensures ParseCatalog("alpha;oops\n") == Failure(NumberFormat)
  {
    assert Unlines(["alpha;oops"], "\n") == "alpha;oops\n";
    LinesUnlines(["alpha;oops"], "\n");
    assert "alpha" + [';'] + "oops" == "alpha;oops";
    SplitPair("alpha", "oops", ';');
    assert ParseInt("oops") == None by {
      assert !IsDigit("oops"[0]);
    }
    assert ParseLine("alpha;oops") == Failure(NumberFormat);
  }
}

=== FILE: formats.dfy ===
/**
 * The file filters the Save and Load dialogs offer, and what each one is
 * bound to: the extension a saved file is given, the suffix the filter
 * accepts, and the codec the handler calls. Each handler compares the
 * chosen filter by identity against its own instances, so a filter is a
 * tag here and the Save and Load filters are distinct types.
 */
module Formats {
  import opened Paths

  datatype SaveFilter = Binary | CsvMatrix | CsvPairs | WordList | Compressed

  datatype LoadFilter = BinaryIn | CsvMatrixIn | ImageDirectory | CompressedIn

  /** The IO routines the handlers call; their encodings are not part of this model. */
  datatype Codec =
    | SaveWorkspace | SaveCSV | SavePairs | SaveWordList | SaveCMPFrame
    | LoadWorkSpace | LoadCSV | LoadImages | LoadCMP

  predicate IsSaveCodec(c: Codec) {
    c.SaveWorkspace? || c.SaveCSV? || c.SavePairs? || c.SaveWordList? || c.SaveCMPFrame?
  }

  /** The extension the Save handler forces onto the chosen file. */
  function Extension(f: SaveFilter): (ext: string)
    ensures |ext| == 3 && '.' !in ext && '/' !in ext && '\\' !in ext
  {
    match f
    case Binary => "w2w"
    case CsvMatrix => "csv"
    case CsvPairs => "csv"
    case WordList => "wrd"
    case Compressed => "cmp"
  }

  /** The name suffix each Save filter's accept method tests for. */
  function AcceptedSuffix(f: SaveFilter): (suffix: string)
    ensures suffix == "." + Extension(f)
  {
    match f
    case Binary => ".w2w"
    case CsvMatrix => ".csv"
    case CsvPairs => ".csv"
    case WordList => ".wrd"
    case Compressed => ".cmp"
  }

  /** A Save filter shows a file whose name has its suffix, and every directory. */
  predicate SaveAccepts(f: SaveFilter, name: string, isDirectory: bool): (shown: bool)
    ensures isDirectory ==> shown
    ensures !isDirectory ==> (shown <==> EndsWith(name, "." + Extension(f)))
  {
    EndsWith(name, AcceptedSuffix(f)) || isDirectory
  }

  /** The routine the Save handler calls for each filter. */
  function SaveCodec(f: SaveFilter): (c: Codec)
    ensures IsSaveCodec(c)
  {
    match f
    case Binary => SaveWorkspace
    case CsvMatrix => SaveCSV
    case CsvPairs => SavePairs
    case WordList => SaveWordList
    case Compressed => SaveCMPFrame
  }

  /** The routine the Load handler calls for each filter. */
  function LoadCodec(f: LoadFilter): (c: Codec)
    ensures !IsSaveCodec(c)
  {
    match f
    case BinaryIn => LoadWorkSpace
    case CsvMatrixIn => LoadCSV
    case ImageDirectory => LoadImages
    case CompressedIn => LoadCMP
  }

  /**
   * Every Save filter is bound to its own codec, and that codec writes:
   * the two CSV filters share an extension but never a codec.
   */
  lemma SaveCodecsDistinct(f: SaveFilter, g: SaveFilter)
    ensures IsSaveCodec(SaveCodec(f))
    ensures SaveCodec(f) == SaveCodec(g) <==> f == g
    ensures Extension(CsvMatrix) == Extension(CsvPairs) && SaveCodec(CsvMatrix) != SaveCodec(CsvPairs)
  {
  }

  /** Every Load filter is bound to its own codec, and that codec reads. */
  lemma LoadCodecsDistinct(f: LoadFilter, g: LoadFilter)
    ensures !IsSaveCodec(LoadCodec(f))
    ensures LoadCodec(f) == LoadCodec(g) <==> f == g
  {
  }

  /**
   * The extension a Save filter forces is the one the same filter accepts,
   * so the file written is always one the filter would show.
   */
  lemma SavedNameAccepted(f: SaveFilter, path: string, sep: char)
    requires PlatformSeparator(sep)
    ensures AcceptedSuffix(f) == "." + Extension(f)
    ensures SaveAccepts(f, FileName(ReplaceFileExtension(path, sep, Extension(f)), sep), false)
  {
    var ext := Extension(f);
    assert AcceptedSuffix(f) == "." + ext by {
      match f
      case Binary =>
      case CsvMatrix =>
      case CsvPairs =>
      case WordList =>
      case Compressed =>
    }
    FileNameGetsExtension(path, sep, ext);
    var name := FileName(ReplaceFileExtension(path, sep, ext), sep);
    assert EndsWith(name, AcceptedSuffix(f));
  }
}

=== FILE: java_text.dfy ===
/**
 * The few pieces of the Java standard library the menu handlers rely on,
 * written out so that their edge cases are explicit: String.indexOf and
 * String.lastIndexOf on a char, String.split with a one-character pattern,
 * Integer.parseInt, Integer.toString and BufferedReader.readLine.
 */
module JavaText {
  import opened Wrappers

  const IntMin: int := -0x8000_0000
  const IntMax: int := 0x7fff_ffff

  /** The values a Java `int` can hold. */
  predicate InIntRange(n: int) {
    IntMin <= n <= IntMax
  }

  // ---------------------------------------------------------------------
  // Searching

  /** String.indexOf(c): the first position of c, or -1 when there is none. */
  function IndexOf(s: string, c: char): (i: int)
    ensures -1 <= i < |s|
    ensures i < 0 ==> c !in s
    ensures i >= 0 ==> s[i] == c && c !in s[..i]
    decreases |s|
  {
    if |s| == 0 then -1
    else if s[0] == c then 0
    else
      var k := IndexOf(s[1..], c);
      if k < 0 then -1
      else
        assert s[..k + 1] == [s[0]] + s[1..][..k];
        k + 1
  }

  /** The first c is at i when s holds c at i and nowhere before. */
  lemma {:induction false} IndexOfAt(s: string, c: char, i: nat)
    requires i < |s| && s[i] == c && c !in s[..i]
    ensures IndexOf(s, c) == i
    decreases i
  {
    if i > 0 {
      assert s[..i][0] == s[0];
      assert s[1..][..i - 1] == s[..i][1..];
      IndexOfAt(s[1..], c, i - 1);
    }
  }

  /** String.lastIndexOf(c): the last position of c, or -1 when there is none. */
  function LastIndexOf(s: string, c: char): (i: int)
    ensures -1 <= i < |s|
    ensures i < 0 ==> c !in s
    ensures i >= 0 ==> s[i] == c
    ensures forall j :: i < j < |s| ==> s[j] != c
    decreases |s|
  {
    if |s| == 0 then -1
    else if s[|s| - 1] == c then |s| - 1
    else
      var k := LastIndexOf(s[..|s| - 1], c);
      assert forall j :: 0 <= j < |s| - 1 ==> s[j] == s[..|s| - 1][j];
      k
  }

  // ---------------------------------------------------------------------
  // String.split(";")

  /** The fields separated by c, joined back with c between them. */
  function Join(fields: seq<string>, c: char): string
    decreases |fields|
  {
    if |fields| == 0 then ""
    else if |fields| == 1 then fields[0]
    else fields[0] + [c] + Join(fields[1..], c)
  }

  /** Cutting s at its first separator: the first field and the fields of the rest make up s. */
  lemma FieldsStep(s: string, c: char, i: nat, rest: seq<string>)
    requires i < |s| && s[i] == c && c !in s[..i]
    requires |rest| >= 1 && Join(rest, c) == s[i + 1..]
    requires forall k :: 0 <= k < |rest| ==> c !in rest[k]
    ensures |[s[..i]] + rest| >= 2
    ensures forall k :: 0 <= k < |[s[..i]] + rest| ==> c !in ([s[..i]] + rest)[k]
    ensures Join([s[..i]] + rest, c) == s
  {
    var r := [s[..i]] + rest;
    assert r[1..] == rest;
    assert s == s[..i] + [c] + s[i + 1..];
  }

  /** Every field between two occurrences of c, empty ones included. */
  function Fields(s: string, c: char): (r: seq<string>)
    ensures |r| >= 1
    ensures forall k :: 0 <= k < |r| ==> c !in r[k]
    ensures Join(r, c) == s
    ensures c in s ==> |r| >= 2
    decreases |s|
  {
    var i := IndexOf(s, c);
    if i < 0 then [s]
    else
      var rest := Fields(s[i + 1..], c);
      FieldsStep(s, c, i, rest);
      [s[..i]] + rest
  }

  /** Cut at the first separator, at i: the text before it is the first field and the fields after it follow. */
  lemma FieldsCutAt(s: string, i: nat, c: char)
    requires i < |s| && s[i] == c && c !in s[..i]
    ensures Fields(s, c) == [s[..i]] + Fields(s[i + 1..], c)
  {
    IndexOfAt(s, c, i);
  }

  /** A separator-free first field, then the separator: the rest's fields follow it. */
  lemma FieldsCut(a: string, rest: string, c: char)
    requires c !in a
    ensures Fields(a + [c] + rest, c) == [a] + Fields(rest, c)
  {
    var s := a + [c] + rest;
    assert s[..|a|] == a && s[|a| + 1..] == rest;
    FieldsCutAt(s, |a|, c);
  }

  /** The longest prefix of fields that does not end in an empty field. */
  function DropTrailingEmpty(fields: seq<string>): (r: seq<string>)
    ensures |r| <= |fields| && r == fields[..|r|]
    ensures forall k :: |r| <= k < |fields| ==> fields[k] == ""
    ensures |r| > 0 ==> r[|r| - 1] != ""
    decreases |fields|
  {
    if |fields| == 0 || fields[|fields| - 1] != "" then fields
    else DropTrailingEmpty(fields[..|fields| - 1])
  }

  /**
   * String.split with a one-character pattern and no limit: a string
   * without the separator splits into itself alone; otherwise every field
   * is kept except the empty ones at the end.
   */
  function Split(s: string, c: char): (r: seq<string>)
    ensures c !in s ==> r == [s]
    ensures forall k :: 0 <= k < |r| ==> c !in r[k]
  {
    if c !in s then [s] else DropTrailingEmpty(Fields(s, c))
  }

  /**
   * When the separator occurs, split keeps the fields in order and drops
   * exactly the empty fields at the end.
   */
  lemma SplitDropsTrailingEmpty(s: string, c: char)
    requires c in s
    ensures var r := Split(s, c); var fs := Fields(s, c);
      |r| <= |fs| && r == fs[..|r|] &&
      (forall k :: |r| <= k < |fs| ==> fs[k] == "") &&
      (|r| > 0 ==> r[|r| - 1] != "")
  {
  }

  /** Splitting two separator-free pieces, the second non-empty, joined by c gives the two pieces back. */
  lemma SplitPair(a: string, b: string, c: char)
    requires c !in a && c !in b && b != ""
    ensures Split(a + [c] + b, c) == [a, b]
  {
    FieldsCut(a, b, c);
    assert (a + [c] + b)[|a|] == c;
  }

  /** Two separator-free fields, each followed by the separator, then the fields of the rest. */
  lemma FieldsTwoCuts(a: string, b: string, rest: string, c: char)
    requires c !in a && c !in b
    ensures Fields(a + [c] + b + [c] + rest, c) == [a] + ([b] + Fields(rest, c))
  {
    var s := a + [c] + b + [c] + rest;
    var t := b + [c] + rest;
    assert s == a + [c] + t;
    FieldsCut(a, t, c);
    FieldsCut(b, rest, c);
    calc {
      Fields(s, c);
      [a] + Fields(t, c);
      [a] + ([b] + Fields(rest, c));
    }
  }

  /** The fields of a + [c] + b + [c] + rest start with a and b. */
  lemma FieldsLeadingPair(a: string, b: string, rest: string, c: char)
    requires c !in a && c !in b
    ensures |Fields(a + [c] + b + [c] + rest, c)| >= 2
    ensures Fields(a + [c] + b + [c] + rest, c)[..2] == [a, b]
  {
    FieldsTwoCuts(a, b, rest, c);
    PairPrefix(a, b, Fields(rest, c));
  }

  /** The first two elements of x, then y, then a tail are x and y. */
  lemma PairPrefix<T>(x: T, y: T, tail: seq<T>)
    ensures |[x] + ([y] + tail)| >= 2 && ([x] + ([y] + tail))[..2] == [x, y]
  {
    assert ([x] + ([y] + tail))[1] == y;
  }

  /** Dropping the trailing empty fields keeps every field up to a non-empty one. */
  lemma {:induction false} DropKeepsUpToNonEmpty(fields: seq<string>, n: nat)
    requires n < |fields| && fields[n] != ""
    ensures n < |DropTrailingEmpty(fields)|
    ensures DropTrailingEmpty(fields)[..n + 1] == fields[..n + 1]
    decreases |fields|
  {
    if fields[|fields| - 1] == "" {
      var front := fields[..|fields| - 1];
      assert front[n] == fields[n];
      DropKeepsUpToNonEmpty(front, n);
      assert front[..n + 1] == fields[..n + 1];
    }
  }

  /** The first two fields survive the trailing-empty removal when the second is not empty. */
  lemma SplitKeepsLeadingPair(a: string, b: string, rest: string, c: char)
    requires c !in a && c !in b && b != ""
    ensures |Split(a + [c] + b + [c] + rest, c)| >= 2
    ensures Split(a + [c] + b + [c] + rest, c)[..2] == [a, b]
  {
    var s := a + [c] + b + [c] + rest;
    FieldsLeadingPair(a, b, rest, c);
    assert s[|a|] == c;
    var fs := Fields(s, c);
    assert fs[1] == fs[..2][1] == b;
    DropKeepsUpToNonEmpty(fs, 1);
  }

  // ---------------------------------------------------------------------
  // Integer.parseInt and Integer.toString

  predicate IsDigit(ch: char) {
    '0' <= ch <= '9'
  }

  predicate AllDigits(s: string) {
    forall k :: 0 <= k < |s| ==> IsDigit(s[k])
  }

  /** The value of a string of decimal digits, most significant first. */
  function DigitsValue(s: string): nat
    requires AllDigits(s)
    decreases |s|
  {
    if |s| == 0 then 0
    else
      assert IsDigit(s[|s| - 1]);
      DigitsValue(s[..|s| - 1]) * 10 + (s[|s| - 1] as int - '0' as int)
  }

  /**
   * Integer.parseInt(s): an optional '+' or '-' followed by at least one
   * decimal digit, whose value must fit in an `int`; anything else is a
   * NumberFormatException, here None.
   */
  function ParseInt(s: string): (r: Option<int>)
    ensures r.Some? ==> InIntRange(r.value)
    ensures r.Some? ==> |s| > 0 && (IsDigit(s[0]) || s[0] == '-' || s[0] == '+')
    ensures r.Some? ==> exists k :: 0 <= k < |s| && IsDigit(s[k])
    ensures r.Some? ==> forall k :: 0 < k < |s| ==> IsDigit(s[k])
  {
    if |s| == 0 then None
    else
      var signed := s[0] == '-' || s[0] == '+';
      var digits := if signed then s[1..] else s;
      if |digits| == 0 || !AllDigits(digits) then None
      else
        var v: int := if s[0] == '-' then -(DigitsValue(digits) as int) else DigitsValue(digits);
        if !InIntRange(v) then None
        else
          assert IsDigit(s[|s| - 1]) by { assert s[|s| - 1] == digits[|digits| - 1]; }
          assert forall k :: 0 < k < |s| ==> IsDigit(s[k]) by {
            forall k | 0 < k < |s| ensures IsDigit(s[k]) {
              if signed { assert s[k] == digits[k - 1]; } else { assert s[k] == digits[k]; }
            }
          }
          Some(v)
  }

  /** The sign parseInt allows in front of the digits: none, '+' or '-'. */
  predicate IsSign(sign: string) {
    sign == "" || sign == "+" || sign == "-"
  }

  /** The value of sign + digits: negative exactly for a '-' sign. */
  function SignedValue(sign: string, d: string): int
    requires AllDigits(d)
  {
    if sign == "-" then -(DigitsValue(d) as int) else DigitsValue(d)
  }

  /**
   * Every optional sign followed by decimal digits whose value fits an
   * `int` is accepted, with that value: leading zeros and a '+' included.
   */
  lemma ParseIntAccepts(sign: string, d: string)
    requires IsSign(sign) && |d| >= 1 && AllDigits(d)
    requires InIntRange(SignedValue(sign, d))
    ensures ParseInt(sign + d) == Some(SignedValue(sign, d))
  {
    var s := sign + d;
    if sign == "" {
      assert s == d;
      assert IsDigit(d[0]);
    } else {
      assert s[0] == sign[0] && s[1..] == d;
    }
  }

  /** Conversely, an accepted string is an optional sign and digits, read as their value. */
  lemma ParseIntReadsNumeral(s: string)
    requires ParseInt(s).Some?
    ensures var sign := if s[0] == '-' || s[0] == '+' then s[..1] else "";
      var d := s[|sign|..];
      IsSign(sign) && |d| >= 1 && AllDigits(d) && s == sign + d &&
      ParseInt(s) == Some(SignedValue(sign, d))
  {
    if s[0] == '-' || s[0] == '+' {
      assert s == s[..1] + s[1..];
      assert s[..1] == "-" || s[..1] == "+";
    }
  }

  /** Integer.parseInt("007") is 7 and Integer.parseInt("+5") is 5. */
  lemma ParseIntLenientExamples()
    ensures ParseInt("007") == Some(7) && ParseInt("+5") == Some(5) && ParseInt("-5") == Some(-5)
  {
    var z := "007";
    assert z[..2] == "00" && "00"[..1] == "0";
    assert DigitsValue(z) == 7;
    assert SignedValue("", z) == 7;
    assert "" + z == z;
    ParseIntAccepts("", z);
    assert DigitsValue("5") == 5;
    assert "+" + "5" == "+5" && "-" + "5" == "-5";
    ParseIntAccepts("+", "5");
    ParseIntAccepts("-", "5");
  }

  function DigitChar(d: nat): (ch: char)
    requires d < 10
    ensures IsDigit(ch) && ch as int - '0' as int == d
  {
    ('0' as int + d) as char
  }

  /** The decimal digits of n without leading zeros. */
  function NatDigits(n: nat): (r: string)
    ensures |r| >= 1 && AllDigits(r)
    ensures DigitsValue(r) == n
    decreases n
  {
    if n < 10 then [DigitChar(n)]
    else
      var front := NatDigits(n / 10);
      var r := front + [DigitChar(n % 10)];
      assert r[..|r| - 1] == front;
      r
  }

  /** Integer.toString(n). */
  function Decimal(n: int): (r: string)
    ensures |r| >= 1
    ensures forall k :: 0 <= k < |r| ==> IsDigit(r[k]) || r[k] == '-'
  {
    if n < 0 then "-" + NatDigits(-n) else NatDigits(n)
  }

  /** Integer.parseInt reads back every `int` Integer.toString writes. */
  lemma ParseIntDecimal(n: int)
    requires InIntRange(n)
    ensures ParseInt(Decimal(n)) == Some(n)
  {
    var s := Decimal(n);
    if n < 0 {
      assert s[1..] == NatDigits(-n);
    } else {
      assert IsDigit(s[0]);
    }
  }

  // ---------------------------------------------------------------------
  // BufferedReader.readLine

  predicate IsTerminator(ch: char) {
    ch == '\n' || ch == '\r'
  }

  predicate NoTerminator(s: string) {
    forall k :: 0 <= k < |s| ==> !IsTerminator(s[k])
  }

  /** The position of the first line terminator, or |s| when there is none. */
  function LineEnd(s: string): (i: nat)
    ensures i <= |s|
    ensures i < |s| ==> IsTerminator(s[i])
    ensures NoTerminator(s[..i])
    decreases |s|
  {
    if |s| == 0 || IsTerminator(s[0]) then 0
    else
      var k := LineEnd(s[1..]);
      assert s[..k + 1] == [s[0]] + s[1..][..k];
      k + 1
  }

  /** The first terminator is at i when none comes before i and s ends or has one at i. */
  lemma {:induction false} LineEndAt(s: string, i: nat)
    requires i <= |s| && NoTerminator(s[..i])
    requires i < |s| ==> IsTerminator(s[i])
    ensures LineEnd(s) == i
    decreases i
  {
    if i > 0 {
      assert s[..i][0] == s[0];
      assert s[1..][..i - 1] == s[..i][1..];
      LineEndAt(s[1..], i - 1);
    }
  }

  /**
   * The lines successive readLine calls return: a line ends at "\n", "\r"
   * or "\r\n"; the terminator is not part of the line; text after the last
   * terminator is a final line; nothing after a final terminator is.
   */
  function Lines(s: string): (ls: seq<string>)
    ensures forall k :: 0 <= k < |ls| ==> NoTerminator(ls[k])
    ensures |ls| <= |s|
    decreases |s|
  {
    if |s| == 0 then []
    else
      var i := LineEnd(s);
      if i == |s| then [s]
      else if s[i] == '\r' && i + 1 < |s| && s[i + 1] == '\n' then [s[..i]] + Lines(s[i + 2..])
      else [s[..i]] + Lines(s[i + 1..])
  }

  /** The three line terminators readLine honours. */
  predicate IsLineTerminator(t: string) {
    t == "\n" || t == "\r" || t == "\r\n"
  }

  /** Each line followed by the terminator t. */
  function Unlines(ls: seq<string>, t: string): string
    decreases |ls|
  {
    if |ls| == 0 then "" else ls[0] + t + Unlines(ls[1..], t)
  }

  /**
   * A line with no terminator, then a terminator, then the rest: readLine
   * returns the line and goes on with the rest, unless a lone "\r" would
   * pair up with a "\n" starting the rest.
   */
  lemma LinesStep(line: string, t: string, rest: string)
    requires NoTerminator(line) && IsLineTerminator(t)
    requires t == "\r" && |rest| > 0 ==> rest[0] != '\n'
    ensures Lines(line + t + rest) == [line] + Lines(rest)
  {
    var s := line + t + rest;
    var i := |line|;
    assert s[i] == t[0];
    assert s[..i] == line;
    LineEndAt(s, i);
    if t == "\r\n" {
      assert s[i + 1] == '\n';
      assert s[i + 2..] == rest;
    } else {
      assert s[i + 1..] == rest;
      if |rest| > 0 {
        assert s[i + 1] == rest[0];
      }
    }
  }

  /** A text written with "\r" line ends never starts with "\n". */
  lemma UnlinesStart(ls: seq<string>, t: string)
    requires |ls| > 0 && NoTerminator(ls[0]) && |t| > 0 && t[0] == '\r'
    ensures |Unlines(ls, t)| > 0 && Unlines(ls, t)[0] != '\n'
  {
    if |ls[0]| > 0 {
      assert Unlines(ls, t)[0] == ls[0][0];
    } else {
      assert Unlines(ls, t)[0] == t[0];
    }
  }

  /**
   * readLine recovers the lines of a text written one line at a time,
   * each ended by "\n", by "\r" or by "\r\n".
   */
  lemma {:induction false} LinesUnlines(ls: seq<string>, t: string)
    requires IsLineTerminator(t)
    requires forall k :: 0 <= k < |ls| ==> NoTerminator(ls[k])
    ensures Lines(Unlines(ls, t)) == ls
    decreases |ls|
  {
    if |ls| > 0 {
      var rest := Unlines(ls[1..], t);
      if t == "\r" && |ls| > 1 {
        UnlinesStart(ls[1..], t);
      }
      LinesStep(ls[0], t, rest);
      LinesUnlines(ls[1..], t);
      assert ls == [ls[0]] + ls[1..];
    }
  }

  /** Each line followed by its own terminator: line k ends with ts[k]. */
  function UnlinesEach(ls: seq<string>, ts: seq<string>): string
    requires |ts| == |ls|
    decreases |ls|
  {
    if |ls| == 0 then "" else ls[0] + ts[0] + UnlinesEach(ls[1..], ts[1..])
  }

  /**
   * No lone "\r" is followed by an empty line ended by "\n": readLine would
   * take the two for one "\r\n".
   */
  predicate NoSplitCrlf(ls: seq<string>, ts: seq<string>)
    requires |ts| == |ls|
  {
    forall k :: 0 <= k < |ls| - 1 && ts[k] == "\r" ==> ls[k + 1] != "" || ts[k + 1] != "\n"
  }

  /** Text without a terminator is one line, or none when it is empty. */
  lemma LinesLast(last: string)
    requires NoTerminator(last)
    ensures Lines(last) == (if last == "" then [] else [last])
  {
    if last != "" {
      assert last[..|last|] == last;
      LineEndAt(last, |last|);
    }
  }

  /** Written lines whose first is not an empty "\n"-ended line never start with "\n". */
  lemma UnlinesEachStart(ls: seq<string>, ts: seq<string>, last: string)
    requires |ts| == |ls| && |ls| > 0
    requires NoTerminator(ls[0]) && IsLineTerminator(ts[0])
    requires ls[0] != "" || ts[0] != "\n"
    ensures (UnlinesEach(ls, ts) + last)[0] != '\n'
  {
    var x := UnlinesEach(ls, ts) + last;
    if |ls[0]| > 0 {
      assert x[0] == ls[0][0];
    } else {
      assert x[0] == ts[0][0];
    }
  }

  /**
   * readLine recovers lines that each end with any of "\n", "\r" or
   * "\r\n", followed by text with no terminator, which is a final line
   * when it is not empty.
   */
  lemma {:induction false} LinesUnlinesEach(ls: seq<string>, ts: seq<string>, last: string)
    requires |ts| == |ls|
    requires forall k :: 0 <= k < |ls| ==> NoTerminator(ls[k]) && IsLineTerminator(ts[k])
    requires NoSplitCrlf(ls, ts)
    requires NoTerminator(last)
    ensures Lines(UnlinesEach(ls, ts) + last) == ls + (if last == "" then [] else [last])
    decreases |ls|
  {
    var final: seq<string> := if last == "" then [] else [last];
    if |ls| == 0 {
      assert UnlinesEach(ls, ts) + last == last;
      LinesLast(last);
    } else {
      var rest := UnlinesEach(ls[1..], ts[1..]) + last;
      assert UnlinesEach(ls, ts) + last == ls[0] + ts[0] + rest;
      assert ts[0] == "\r" && |rest| > 0 ==> rest[0] != '\n' by {
        if ts[0] == "\r" && |rest| > 0 {
          if |ls| > 1 {
            assert ls[1..][0] == ls[1] && ts[1..][0] == ts[1];
            UnlinesEachStart(ls[1..], ts[1..], last);
          } else {
            assert rest == last;
            assert !IsTerminator(last[0]);
          }
        }
      }
      LinesStep(ls[0], ts[0], rest);
      NoSplitCrlfTail(ls, ts);
      LinesUnlinesEach(ls[1..], ts[1..], last);
      ConsAppend(ls, final);
    }
  }

  /** Dropping the first line keeps the rule against a split "\r\n". */
  lemma NoSplitCrlfTail(ls: seq<string>, ts: seq<string>)
    requires |ts| == |ls| && |ls| > 0
    requires NoSplitCrlf(ls, ts)
    ensures NoSplitCrlf(ls[1..], ts[1..])
  {
    forall k | 0 <= k < |ls| - 2 && ts[1..][k] == "\r"
      ensures ls[1..][k + 1] != "" || ts[1..][k + 1] != "\n"
    {
      assert ts[1..][k] == ts[k + 1];
    }
  }

  /** A non-empty sequence is its head followed by its tail, before any suffix. */
  lemma ConsAppend<T>(xs: seq<T>, ys: seq<T>)
    requires |xs| > 0
    ensures xs + ys == [xs[0]] + (xs[1..] + ys)
  {
    assert xs == [xs[0]] + xs[1..];
  }

  /** The same terminator n times. */
  function Repeat(t: string, n: nat): (ts: seq<string>)
    ensures |ts| == n && forall k :: 0 <= k < n ==> ts[k] == t
    decreases n
  {
    if n == 0 then [] else [t] + Repeat(t, n - 1)
  }

  /** Writing every line with the one terminator t is writing line k with Repeat(t, |ls|)[k]. */
  lemma {:induction false} UnlinesUniform(ls: seq<string>, t: string)
    ensures Unlines(ls, t) == UnlinesEach(ls, Repeat(t, |ls|))
    decreases |ls|
  {
    if |ls| > 0 {
      UnlinesUniform(ls[1..], t);
      assert Repeat(t, |ls|)[1..] == Repeat(t, |ls| - 1);
    }
  }

  /** A text whose lines all end with t but whose last line has no terminator is read line by line. */
  lemma LinesUnterminatedLast(ls: seq<string>, t: string, last: string)
    requires IsLineTerminator(t)
    requires forall k :: 0 <= k < |ls| ==> NoTerminator(ls[k])
    requires NoTerminator(last) && last != ""
    ensures Lines(Unlines(ls, t) + last) == ls + [last]
  {
    var ts := Repeat(t, |ls|);
    UnlinesUniform(ls, t);
    LinesUnlinesEach(ls, ts, last);
  }

  /** A listing whose last line has no terminator: "a;1\nb;2" has two lines. */
  lemma LinesUnterminatedExample()
    ensures Lines("a;1\nb;2") == ["a;1", "b;2"]
  {
    assert UnlinesEach(["a;1"], ["\n"]) + "b;2" == "a;1\nb;2";
    LinesUnlinesEach(["a;1"], ["\n"], "b;2");
  }

  /** A listing with mixed line ends: "a\r\nb\n" has two lines. */
  lemma LinesMixedExample()
    ensures Lines("a\r\nb\n") == ["a", "b"]
  {
    assert UnlinesEach(["a", "b"], ["\r\n", "\n"]) + "" == "a\r\nb\n";
    LinesUnlinesEach(["a", "b"], ["\r\n", "\n"], "");
  }
}

=== FILE: paths.dfy ===
/**
 * AdvancedMenu.replaceFileExtension and the path notions it relies on.
 * A path is the string File.getAbsolutePath returns; the separator
 * (File.separatorChar) is a parameter.
 */
module Paths {
  import opened JavaText

  /** The separator characters a Java platform uses. */
  predicate PlatformSeparator(sep: char) {
    sep == '/' || sep == '\\'
  }

  predicate EndsWith(s: string, suffix: string) {
    |suffix| <= |s| && s[|s| - |suffix|..] == suffix
  }

  /** The final segment of a path contains a dot: some dot has no separator at or after it. */
  ghost predicate HasExtension(path: string, sep: char) {
    exists j :: 0 <= j < |path| && path[j] == '.' && sep !in path[j..]
  }

  /** A tail that may be cut off a path: nothing, or one dot and a dot- and separator-free token. */
  predicate IsExtensionTail(t: string, sep: char) {
    t == [] || (t[0] == '.' && '.' !in t[1..] && sep !in t)
  }

  /**
   * File.getName: the part of the path after its last separator, that is
   * the longest suffix of the path that holds no separator.
   */
  function FileName(path: string, sep: char): (name: string)
    ensures |name| <= |path| && name == path[|path| - |name|..]
    ensures forall k :: 0 <= k < |name| ==> name[k] != sep
    ensures |name| < |path| ==> path[|path| - |name| - 1] == sep
  {
    path[LastIndexOf(path, sep) + 1..]
  }

  /** From the last dot on, a path whose last dot follows its last separator is an extension tail. */
  lemma ExtensionAfterLastSeparator(path: string, sep: char)
    requires LastIndexOf(path, '.') > LastIndexOf(path, sep)
    ensures IsExtensionTail(path[LastIndexOf(path, '.')..], sep)
  {
    var d := LastIndexOf(path, '.');
    var t := path[d..];
    assert forall k :: 0 <= k < |t| ==> t[k] == path[d + k];
  }

  /** A path whose last dot does not follow its last separator has no extension. */
  lemma NoExtensionBeforeLastSeparator(path: string, sep: char)
    requires LastIndexOf(path, '.') <= LastIndexOf(path, sep)
    ensures !HasExtension(path, sep)
  {
    var s := LastIndexOf(path, sep);
    forall j | 0 <= j < |path| && path[j] == '.'
      ensures sep in path[j..]
    {
      assert path[j..][s - j] == sep;
    }
  }

  /**
   * replaceFileExtension: if the last dot lies after the last separator,
   * everything from that dot on is replaced by "." + ext; otherwise
   * "." + ext is appended.
   *
   * The result is a prefix of the path followed by "." + ext; what was
   * cut off is empty or the extension of the final segment, and it is
   * cut whenever the final segment has one.
   */
  function ReplaceFileExtension(path: string, sep: char, ext: string): (r: string)
    ensures EndsWith(r, "." + ext)
    ensures |r| - |ext| - 1 <= |path|
    ensures r[..|r| - |ext| - 1] == path[..|r| - |ext| - 1]
    ensures IsExtensionTail(path[|r| - |ext| - 1..], sep)
    ensures HasExtension(path, sep) ==> |r| - |ext| - 1 < |path|
  {
    var s := LastIndexOf(path, sep);
    var d := LastIndexOf(path, '.');
    if d > s then
      ExtensionAfterLastSeparator(path, sep);
      var r := path[..d] + "." + ext;
      assert r[..d] == path[..d] && r[d..] == "." + ext;
      r
    else
      NoExtensionBeforeLastSeparator(path, sep);
      var r := path + "." + ext;
      assert r[..|path|] == path && r[|path|..] == "." + ext;
      assert path[|path|..] == [];
      r
  }

  /** A dot that belongs to a directory name is never taken for an extension marker. */
  lemma DirectoryDotIsKept(path: string, sep: char, ext: string)
    requires forall j :: 0 <= j < |path| && path[j] == '.' ==> sep in path[j..]
    ensures ReplaceFileExtension(path, sep, ext) == path + "." + ext
  {
    var r := ReplaceFileExtension(path, sep, ext);
    var k := |r| - |ext| - 1;
    assert k == |path|;
    assert r == r[..k] + r[k..];
  }

  /** Two strings that agree below k and hold no c from k on have the same last c. */
  lemma LastIndexOfSharedPrefix(a: string, b: string, c: char, k: nat)
    requires k <= |a| && k <= |b| && a[..k] == b[..k]
    requires forall j :: k <= j < |a| ==> a[j] != c
    requires forall j :: k <= j < |b| ==> b[j] != c
    ensures LastIndexOf(a, c) == LastIndexOf(b, c)
  {
    var ia := LastIndexOf(a, c);
    var ib := LastIndexOf(b, c);
    assert forall j :: 0 <= j < k ==> a[j] == a[..k][j] == b[..k][j] == b[j];
  }

  /** Neither the tail the replacement cuts off nor the tail it appends holds a separator. */
  lemma ReplacedTailsHoldNoSeparator(path: string, sep: char, ext: string)
    requires PlatformSeparator(sep) && sep !in ext
    ensures var r := ReplaceFileExtension(path, sep, ext); var k := |r| - |ext| - 1;
      (forall j :: k <= j < |path| ==> path[j] != sep) &&
      (forall j :: k <= j < |r| ==> r[j] != sep)
  {
    var r := ReplaceFileExtension(path, sep, ext);
    var k := |r| - |ext| - 1;
    var cut := path[k..];
    assert IsExtensionTail(cut, sep);
    assert forall j :: k <= j < |path| ==> path[j] == cut[j - k];
    var added := r[k..];
    assert added == "." + ext;
    assert forall j :: k <= j < |r| ==> r[j] == added[j - k];
  }

  /** The directory part, up to and including the last separator, is unchanged. */
  lemma ReplaceKeepsDirectory(path: string, sep: char, ext: string)
    requires PlatformSeparator(sep) && sep !in ext
    ensures var r := ReplaceFileExtension(path, sep, ext);
      LastIndexOf(r, sep) == LastIndexOf(path, sep) &&
      r[..LastIndexOf(r, sep) + 1] == path[..LastIndexOf(path, sep) + 1]
  {
    var r := ReplaceFileExtension(path, sep, ext);
    var k := |r| - |ext| - 1;
    ReplacedTailsHoldNoSeparator(path, sep, ext);
    LastIndexOfSharedPrefix(r, path, sep, k);
    var s := LastIndexOf(path, sep);
    assert r[..s + 1] == r[..k][..s + 1];
  }

  /**
   * With an extension that holds neither a dot nor the separator,
   * replacing the extension a second time changes nothing.
   */
  lemma {:induction false} ReplaceIdempotent(path: string, sep: char, ext: string)
    requires PlatformSeparator(sep) && '.' !in ext && sep !in ext
    ensures var r := ReplaceFileExtension(path, sep, ext);
      ReplaceFileExtension(r, sep, ext) == r
  {
    var r := ReplaceFileExtension(path, sep, ext);
    var k := |r| - |ext| - 1;
    assert r[k..] == "." + ext;
    assert r[k] == '.';
    var d := LastIndexOf(r, '.');
    assert d == k;
    var s := LastIndexOf(r, sep);
    assert s < k;
    assert r[..k] + "." + ext == r;
  }

  /** Of two suffixes of one string, the shorter is a suffix of the longer. */
  lemma SuffixOfLongerSuffix(s: string, a: string, b: string)
    requires EndsWith(s, a) && EndsWith(s, b) && |b| <= |a|
    ensures EndsWith(a, b)
  {
    var m := |s| - |a|;
    assert a[|a| - |b|..] == s[m..][|a| - |b|..] == s[|s| - |b|..];
  }

  /** The file name is at least as long as any separator-free tail of the path. */
  lemma NameLongerThanSeparatorFreeTail(path: string, sep: char, tail: string)
    requires EndsWith(path, tail) && sep !in tail
    ensures |FileName(path, sep)| >= |tail|
  {
    var k := |path| - |tail|;
    assert forall j :: k <= j < |path| ==> path[j] == tail[j - k];
  }

  /** A separator-free tail of a path lies inside the path's file name. */
  lemma NameCoversSeparatorFreeTail(path: string, sep: char, tail: string)
    requires EndsWith(path, tail) && sep !in tail
    ensures EndsWith(FileName(path, sep), tail)
  {
    NameLongerThanSeparatorFreeTail(path, sep, tail);
    SuffixOfLongerSuffix(path, FileName(path, sep), tail);
  }

  /** The name of the renamed file ends with "." + ext. */
  lemma FileNameGetsExtension(path: string, sep: char, ext: string)
    requires PlatformSeparator(sep) && sep !in ext
    ensures EndsWith(FileName(ReplaceFileExtension(path, sep, ext), sep), "." + ext)
  {
    NameCoversSeparatorFreeTail(ReplaceFileExtension(path, sep, ext), sep, "." + ext);
  }
}

=== FILE: persistence.dfy ===
/**
 * The File menu's Save, Load and Load Web handlers, once their dialogs
 * have been answered. Each handler is a function from the answers it gets
 * (chosen file, chosen filter, which files exist, the overwrite answer,
 * the downloaded listing, the picked entry) to the trace of what it does:
 * dialogs it opens, lines it prints, codecs it calls.
 */
module Persistence {
  import opened Wrappers
  import opened Paths
  import opened Formats
  import opened Catalog
  import opened JavaText

  /** One call of an IO routine on one file. */
  datatype Call = Call(codec: Codec, path: string)

  /** What a handler does that can be observed. */
  datatype Effect =
    | Confirm(path: string)            // the "Overwrite file?" yes/no dialog for path
    | Println(text: string)            // a line on standard output
    | Invoke(call: Call)               // an IO routine runs
    | VisualizationChanged             // the main window is told to redraw
    | OfferEntries(entries: seq<Entry>) // the "Select file to download." dialog
    | StackTrace                       // a caught exception is printed
    | Uncaught(thrown: Thrown)         // an unchecked exception leaves the handler

  /** The answer to a yes/no dialog; Closed is the dialog dismissed without an answer. */
  datatype Answer = Yes | No | Closed

  /** The codec calls of a trace, in order. */
  function Calls(trace: seq<Effect>): (cs: seq<Call>)
    ensures |cs| <= |trace|
    decreases |trace|
  {
    if |trace| == 0 then []
    else (if trace[0].Invoke? then [trace[0].call] else []) + Calls(trace[1..])
  }

  lemma {:induction false} CallsAppend(a: seq<Effect>, b: seq<Effect>)
    ensures Calls(a + b) == Calls(a) + Calls(b)
    decreases |a|
  {
    if |a| == 0 {
      assert a + b == b;
    } else {
      assert (a + b)[0] == a[0];
      assert (a + b)[1..] == a[1..] + b;
      CallsAppend(a[1..], b);
    }
  }

  /** A trace calls nothing exactly when it holds no Invoke effect. */
  lemma {:induction false} CallsEmpty(trace: seq<Effect>)
    ensures Calls(trace) == [] <==> forall i :: 0 <= i < |trace| ==> !trace[i].Invoke?
    decreases |trace|
  {
    if |trace| > 0 {
      CallsEmpty(trace[1..]);
      assert forall i :: 1 <= i < |trace| ==> trace[i] == trace[1..][i - 1];
      if trace[0].Invoke? {
        assert Calls(trace)[0] == trace[0].call;
      }
    }
  }

  // ---------------------------------------------------------------------
  // Save

  /**
   * The file a Save writes: the chosen path with the extension its filter
   * forces; unchanged when no known filter was selected.
   */
  function SaveTarget(filter: Option<SaveFilter>, path: string, sep: char): (target: string)
    ensures filter.Some? ==> EndsWith(target, "." + Extension(filter.value))
    ensures filter.None? ==> target == path
  {
    match filter
    case None => path
    case Some(f) => ReplaceFileExtension(path, sep, Extension(f))
  }

  /** The codec call bound to the selected filter, if any. */
  function SaveDispatch(filter: Option<SaveFilter>, target: string): (trace: seq<Effect>)
    ensures filter.None? ==> Calls(trace) == []
    ensures filter.Some? ==> Calls(trace) == [Call(SaveCodec(filter.value), target)]
    ensures forall e :: e in trace ==> e.Invoke?
  {
    match filter
    case None => []
    case Some(f) => [Invoke(Call(SaveCodec(f), target))]
  }

  /** The overwrite prompt followed by the effects of rest; the prompt adds no codec call. */
  function ConfirmThen(target: string, rest: seq<Effect>): (trace: seq<Effect>)
    ensures Confirm(target) in trace
    ensures Calls(trace) == Calls(rest)
    ensures forall e :: e in trace ==> e == Confirm(target) || e in rest
  {
    CallsAppend([Confirm(target)], rest);
    assert Calls([Confirm(target)]) == [];
    var trace := [Confirm(target)] + rest;
    assert trace[0] == Confirm(target);
    trace
  }

  /**
   * The Save handler once the target is known: the overwrite dialog only
   * when the target exists, and the codec unless that dialog got a No.
   */
  function SaveAt(filter: Option<SaveFilter>, target: string, existing: set<string>, answer: Answer): (trace: seq<Effect>)
    ensures Confirm(target) in trace <==> target in existing
    ensures Calls(trace) == [] <==> filter.None? || (target in existing && answer == No)
    ensures forall c :: c in Calls(trace) ==> c == Call(SaveCodec(filter.value), target)
    ensures |Calls(trace)| <= 1
  {
    var dispatch := SaveDispatch(filter, target);
    if target in existing then
      if answer == No then [Confirm(target), Println("Save canceled.")]
      else ConfirmThen(target, dispatch)
    else
      assert Confirm(target) !in dispatch;
      dispatch
  }

  /**
   * The Save handler after the save dialog closed.
   *   chosen   the absolute path of the chosen file, None if the dialog was not approved
   *   filter   the selected filter, None if no known one was selected
   *   existing the paths that exist on disk
   *   answer   the answer the overwrite dialog would get
   * The overwrite dialog is shown only when the renamed target exists; a
   * No ends the handler before any codec runs; any other answer, or no
   * dialog, goes on to the one codec bound to the filter.
   */
  function Save(chosen: Option<string>, filter: Option<SaveFilter>, sep: char,
                existing: set<string>, answer: Answer): (trace: seq<Effect>)
    ensures chosen.None? ==> trace == []
    ensures chosen.Some? ==> var target := SaveTarget(filter, chosen.value, sep);
      && (Confirm(target) in trace <==> target in existing)
      && (Calls(trace) == [] <==> filter.None? || (target in existing && answer == No))
      && (forall c :: c in Calls(trace) ==> c == Call(SaveCodec(filter.value), target))
    ensures |Calls(trace)| <= 1
  {
    match chosen
    case None => []
    case Some(path) => SaveAt(filter, SaveTarget(filter, path, sep), existing, answer)
  }

  /** A target that does not exist is written without asking. */
  lemma SaveAbsentTargetNoPrompt(path: string, f: SaveFilter, sep: char, existing: set<string>, answer: Answer)
    requires ReplaceFileExtension(path, sep, Extension(f)) !in existing
    ensures var trace := Save(Some(path), Some(f), sep, existing, answer);
      && (forall i :: 0 <= i < |trace| ==> !trace[i].Confirm?)
      && Calls(trace) == [Call(SaveCodec(f), ReplaceFileExtension(path, sep, Extension(f)))]
      && trace == [Invoke(Call(SaveCodec(f), ReplaceFileExtension(path, sep, Extension(f))))]
  {
    var target := ReplaceFileExtension(path, sep, Extension(f));
    assert SaveTarget(Some(f), path, sep) == target;
    var trace := Save(Some(path), Some(f), sep, existing, answer);
    assert trace == SaveDispatch(Some(f), target);
    forall i | 0 <= i < |trace| ensures !trace[i].Confirm? {
      assert trace[i] in trace;
    }
  }

  /** Answering No to the overwrite dialog ends the save with no codec call. */
  lemma SaveDeclinedWritesNothing(path: string, filter: Option<SaveFilter>, sep: char, existing: set<string>)
    requires SaveTarget(filter, path, sep) in existing
    ensures var trace := Save(Some(path), filter, sep, existing, No);
      && trace == [Confirm(SaveTarget(filter, path, sep)), Println("Save canceled.")]
      && forall i :: 0 <= i < |trace| ==> !trace[i].Invoke?
  {
  }

  /**
   * Yes, or closing the overwrite dialog, goes on with the save: the
   * prompt comes first and exactly one codec call follows it.
   */
  lemma SaveOverwriteConfirmed(path: string, f: SaveFilter, sep: char, existing: set<string>, answer: Answer)
    requires answer != No
    requires ReplaceFileExtension(path, sep, Extension(f)) in existing
    ensures var target := ReplaceFileExtension(path, sep, Extension(f));
      Save(Some(path), Some(f), sep, existing, answer) == [Confirm(target), Invoke(Call(SaveCodec(f), target))]
  {
    var target := ReplaceFileExtension(path, sep, Extension(f));
    var dispatch := [Invoke(Call(SaveCodec(f), target))];
    assert SaveTarget(Some(f), path, sep) == target;
    assert SaveDispatch(Some(f), target) == dispatch;
    assert Save(Some(path), Some(f), sep, existing, answer) == ConfirmThen(target, dispatch);
    assert ConfirmThen(target, dispatch) == [Confirm(target)] + dispatch;
  }

  /**
   * Whatever the dialogs answer, a save never calls more than one codec,
   * never a load routine, and only on a file its filter accepts.
   */
  lemma SaveWritesAcceptedFile(path: string, f: SaveFilter, sep: char, existing: set<string>, answer: Answer)
    requires PlatformSeparator(sep)
    ensures var trace := Save(Some(path), Some(f), sep, existing, answer);
      forall c :: c in Calls(trace) ==> IsSaveCodec(c.codec) && SaveAccepts(f, FileName(c.path, sep), false)
  {
    var trace := Save(Some(path), Some(f), sep, existing, answer);
    var target := ReplaceFileExtension(path, sep, Extension(f));
    assert SaveTarget(Some(f), path, sep) == target;
    assert forall c :: c in Calls(trace) ==> c == Call(SaveCodec(f), target);
    SavedNameAccepted(f, path, sep);
    SaveCodecsDistinct(f, f);
    forall c | c in Calls(trace)
      ensures IsSaveCodec(c.codec) && SaveAccepts(f, FileName(c.path, sep), false)
    {
      assert c == Call(SaveCodec(f), target);
    }
  }

  /**
   * The two CSV filters write to the same file name but through
   * different codecs: the filter, not the extension, picks the codec.
   */
  lemma CsvFiltersShareFileNotCodec(path: string, sep: char, existing: set<string>, answer: Answer)
    ensures SaveTarget(Some(CsvMatrix), path, sep) == SaveTarget(Some(CsvPairs), path, sep)
    ensures Calls(Save(Some(path), Some(CsvMatrix), sep, existing, answer)) !=
            Calls(Save(Some(path), Some(CsvPairs), sep, existing, answer))
            || (SaveTarget(Some(CsvMatrix), path, sep) in existing && answer == No)
  {
    var target := SaveTarget(Some(CsvMatrix), path, sep);
    var a := Calls(Save(Some(path), Some(CsvMatrix), sep, existing, answer));
    var b := Calls(Save(Some(path), Some(CsvPairs), sep, existing, answer));
    if !(target in existing && answer == No) {
      assert a[0] == Call(SaveCSV, target);
      assert b[0] == Call(SavePairs, target);
    }
  }

  // ---------------------------------------------------------------------
  // Load

  /**
   * The Load handler after the open dialog closed: the codec bound to the
   * selected filter reads the chosen path as it is (no extension is
   * forced, nothing is asked); loading an image directory also redraws.
   */
  function Load(chosen: Option<string>, filter: Option<LoadFilter>): (trace: seq<Effect>)
    ensures chosen.None? || filter.None? ==> trace == []
    ensures chosen.Some? && filter.Some? ==>
      Calls(trace) == [Call(LoadCodec(filter.value), chosen.value)]
    ensures forall i :: 0 <= i < |trace| ==> !trace[i].Confirm?
    ensures VisualizationChanged in trace <==> chosen.Some? && filter == Some(ImageDirectory)
    ensures chosen.Some? && filter.Some? ==>
      |trace| >= 1 && trace[0] == Invoke(Call(LoadCodec(filter.value), chosen.value))
    ensures VisualizationChanged in trace ==> trace[0].Invoke? && trace[|trace| - 1] == VisualizationChanged
  {
    match (chosen, filter)
    case (Some(path), Some(ImageDirectory)) =>
      [Invoke(Call(LoadImages, path)), VisualizationChanged]
    case (Some(path), Some(f)) =>
      [Invoke(Call(LoadCodec(f), path))]
    case _ => []
  }

  // ---------------------------------------------------------------------
  // Load Web

  /** The outcome of downloading the catalog listing. */
  datatype Download = Downloaded(body: string) | DownloadFailed

  /** The file every Load Web selection loads. */
  const WebDataset: string := "IEP.cmp"

  /**
   * The Load Web handler: a failed download is printed; a malformed
   * listing throws out of the handler before any dialog; otherwise all
   * entries are offered, and picking any of them loads the fixed local
   * compressed file. `pick` is the index the user chose among the offered
   * entries; None, or an index outside them, is the dialog's null.
   */
  function LoadWeb(download: Download, pick: Option<nat>): (trace: seq<Effect>)
    ensures download.DownloadFailed? ==> trace == [StackTrace]
    ensures download.Downloaded? && ParseCatalog(download.body).Failure? ==>
      trace == [Uncaught(ParseCatalog(download.body).error)]
    ensures (exists es :: OfferEntries(es) in trace) <==>
      download.Downloaded? && ParseCatalog(download.body).Success?
    ensures forall es :: OfferEntries(es) in trace ==> es == ParseCatalog(download.body).value
    ensures forall c :: c in Calls(trace) ==> c == Call(LoadCMP, WebDataset)
    ensures Calls(trace) != [] <==>
      (download.Downloaded? && ParseCatalog(download.body).Success? &&
       pick.Some? && pick.value < |ParseCatalog(download.body).value|)
    ensures |Calls(trace)| <= 1
  {
    match download
    case DownloadFailed => [StackTrace]
    case Downloaded(body) =>
      match ParseCatalog(body)
      case Failure(e) => [Uncaught(e)]
      case Success(entries) => OfferThenLoad(entries, pick)
  }

  /**
   * The entry dialog offering exactly the parsed entries, then the load of
   * the fixed file when an offered entry was picked.
   */
  function OfferThenLoad(entries: seq<Entry>, pick: Option<nat>): (trace: seq<Effect>)
    ensures OfferEntries(entries) in trace
    ensures forall es :: OfferEntries(es) in trace ==> es == entries
    ensures forall c :: c in Calls(trace) ==> c == Call(LoadCMP, WebDataset)
    ensures Calls(trace) != [] <==> pick.Some? && pick.value < |entries|
    ensures Calls(trace) == (if pick.Some? && pick.value < |entries| then [Call(LoadCMP, WebDataset)] else [])
  {
    var load := if pick.Some? && pick.value < |entries| then [Invoke(Call(LoadCMP, WebDataset))] else [];
    CallsAppend([OfferEntries(entries)], load);
    assert Calls([OfferEntries(entries)]) == [];
    [OfferEntries(entries)] + load
  }

  /** Which entry is picked makes no difference to what is loaded. */
  lemma LoadWebIgnoresSelection(body: string, i: nat, j: nat)
    requires ParseCatalog(body).Success?
    requires i < |ParseCatalog(body).value| && j < |ParseCatalog(body).value|
    ensures LoadWeb(Downloaded(body), Some(i)) == LoadWeb(Downloaded(body), Some(j))
  {
  }

  /** A listing with one malformed line offers nothing and loads nothing, whatever is picked. */
  lemma LoadWebMalformedAborts(body: string, pick: Option<nat>, k: nat)
    requires k < |Lines(body)| && ParseLine(Lines(body)[k]).Failure?
    ensures forall i :: 0 <= i < |LoadWeb(Downloaded(body), pick)| ==>
      !LoadWeb(Downloaded(body), pick)[i].Invoke? && !LoadWeb(Downloaded(body), pick)[i].OfferEntries?
  {
    var r := ParseCatalog(body);
    assert !ParseLine(Lines(body)[k]).Success?;
    assert r.Failure?;
    assert LoadWeb(Downloaded(body), pick) == [Uncaught(r.error)];
  }
}

=== FILE: render.dfy ===
/**
 * The Render menu: "Render Once" and a toggle item whose label flips
 * between "Render Always" and "Render Smart". Both items mark the image
 * as changed and set the panel's render state.
 */
module Render {

  /** Visualization.STATE_RENDER_SMART, STATE_RENDER_ONCE, STATE_RENDER_ALWAYS. */
  datatype RenderState = Smart | Once | Always

  /** The panel fields and the toggle label the two menu items change. */
  datatype RenderMenu = RenderMenu(state: RenderState, imageChanged: bool, toggleLabel: string)

  const LabelAlways: string := "Render Always"
  const LabelSmart: string := "Render Smart"

  /** The menu as built: the toggle reads "Render Always"; the panel's state and flag are the panel's own. */
  function Built(state: RenderState, imageChanged: bool): (m: RenderMenu)
    ensures m.state == state && m.imageChanged == imageChanged
    ensures LabelMatches(m) <==> state != Always
  {
    RenderMenu(state, imageChanged, LabelAlways)
  }

  /** The toggle's label names the mode a click on it switches to. */
  predicate LabelMatches(m: RenderMenu) {
    m.toggleLabel == (if m.state == Always then LabelSmart else LabelAlways)
  }

  /**
   * The toggle item: from SMART or ONCE it switches to ALWAYS and offers
   * "Render Smart"; from ALWAYS it switches to SMART and offers
   * "Render Always".
   */
  function Toggle(m: RenderMenu): (m': RenderMenu)
    ensures m'.imageChanged
    ensures m.state != Always ==> m'.state == Always && m'.toggleLabel == LabelSmart
    ensures m.state == Always ==> m'.state == Smart && m'.toggleLabel == LabelAlways
  {
    match m.state
    case Smart | Once => RenderMenu(Always, true, LabelSmart)
    case Always => RenderMenu(Smart, true, LabelAlways)
  }

  /** After a click on the toggle its label always matches the state. */
  lemma ToggleLabelMatches(m: RenderMenu)
    ensures LabelMatches(Toggle(m))
  {
  }

  /** While the label matches, a click on the toggle switches to the mode its label names. */
  lemma ToggleHonoursLabel(m: RenderMenu)
    requires LabelMatches(m)
    ensures m.toggleLabel == LabelSmart ==> Toggle(m).state == Smart
    ensures m.toggleLabel == LabelAlways ==> Toggle(m).state == Always
  {
  }

  /** Two clicks on the toggle come back to SMART or ALWAYS; from ONCE they end in SMART. */
  lemma ToggleTwice(m: RenderMenu)
    ensures Toggle(Toggle(m)).state == (if m.state == Once then Smart else m.state)
  {
  }

  /** "Render Once" as the menu code has it: the toggle label is left as it was. */
  function RenderOnceAsWritten(m: RenderMenu): (m': RenderMenu)
    ensures m'.state == Once && m'.imageChanged
    ensures m'.toggleLabel == m.toggleLabel
  {
    RenderMenu(Once, true, m.toggleLabel)
  }

  /**
   * Always-on rendering, then "Render Once", leaves the toggle reading
   * "Render Smart" in state ONCE; clicking it then selects ALWAYS.
   */
  lemma RenderOnceLeavesStaleLabel()
    ensures var m := Toggle(Built(Smart, false));
      var m2 := RenderOnceAsWritten(m);
      LabelMatches(m) && !LabelMatches(m2) &&
      m2.toggleLabel == LabelSmart && Toggle(m2).state == Always
  {
  }

  /** "Render Once" with the toggle label reset to the mode a click would now select. */
  function RenderOnce(m: RenderMenu): (m': RenderMenu)
    ensures m'.state == Once && m'.imageChanged
    ensures LabelMatches(m')
  {
    RenderMenu(Once, true, LabelAlways)
  }

  datatype RenderItem = OnceItem | ToggleItem

  /** One click on a Render menu item, with the corrected "Render Once". */
  function Click(m: RenderMenu, item: RenderItem): RenderMenu {
    match item
    case OnceItem => RenderOnce(m)
    case ToggleItem => Toggle(m)
  }

  /** The menu after a sequence of clicks. */
  function Clicks(m: RenderMenu, items: seq<RenderItem>): RenderMenu
    decreases |items|
  {
    if |items| == 0 then m else Clicks(Click(m, items[0]), items[1..])
  }

  /**
   * With the corrected "Render Once", every sequence of clicks from a menu
   * whose label matches its state keeps the label matching, so the toggle
   * always does what it says; any click marks the image changed. The menu
   * code's own "Render Once" breaks this (RenderOnceLeavesStaleLabel).
   */
  lemma {:induction false} ClicksKeepLabel(m: RenderMenu, items: seq<RenderItem>)
    requires LabelMatches(m)
    ensures LabelMatches(Clicks(m, items))
    ensures |items| > 0 ==> Clicks(m, items).imageChanged
    decreases |items|
  {
    if |items| > 0 {
      var m1 := Click(m, items[0]);
      assert LabelMatches(m1) && m1.imageChanged;
      ClicksKeepLabel(m1, items[1..]);
      if |items[1..]| == 0 {
        assert Clicks(m, items) == m1;
      }
    }
  }

  /** A built menu starts with a matching label unless the panel starts in ALWAYS. */
  lemma BuiltLabelMatches(state: RenderState, imageChanged: bool)
    ensures LabelMatches(Built(state, imageChanged)) <==> state != Always
  {
  }
}

=== FILE: wrappers.dfy ===
/** Failure-carrying wrappers shared by the other modules. */
module Wrappers {

  /** A value that may be absent (a Java reference that may be null). */
  datatype Option<+T> = None | Some(value: T)

  /** The outcome of a step that either yields a value or aborts with an error. */
  datatype Result<+R, +E> = Success(value: R) | Failure(error: E)
}
